=== FILE: README.md ===
# LiteRAG RAG API: chunking, ingest payloads and query projection

This project models the logic the RAG API (`rag-api/main.py`) runs itself, as
opposed to the work it hands to the embedding service and the vector store:

- `chunk_text`, which cuts a document into overlapping windows of at most
  `chunk_size` characters (500 by default, with an overlap of 50). A window
  that ends before the end of the text (`end < len(text)`) may be cut early
  after its last `.` or newline. Every
  window is stripped of surrounding whitespace, and windows that strip to
  nothing are dropped. A text no longer than `chunk_size` is returned whole
  and unstripped, so an empty document gives one empty chunk.
- the `/ingest` endpoint. It chunks the document and embeds the chunks. It
  then builds one point per (chunk, embedding) pair with the payload
  `{"text": chunk, "chunk_index": i, **metadata}` and reports the number of
  chunks.
- the `/query` endpoint. It embeds the query and searches with the first
  embedding. It then turns each hit into `{text, score, metadata}`, where
  `metadata` is every payload key except `text`.

The embedding service and the store's search are function parameters. Every
error raised by the modelled code, which the endpoints turn into HTTP 500, is
an `Error` value. Errors raised inside the store's client are not modelled.

Two features of `chunk_text` shape the model:

- **The break point is window-relative.** `chunk.rfind(...)` gives an index
  into the window. The code compares it with `start + chunk_size // 2` and
  uses `break_point + 1` as an absolute end in the text. The model keeps this
  behaviour.
  - `CutOnlyNearStart` proves the consequence: an early cut can only happen in
    windows that end within the first `chunk_size` characters of the text.
  - `CutMissesBreak` proves that a cut window that does not start at 0 does
    not end with the break it was cut at.
- **Termination needs a condition on the parameters.** The model requires
  `ValidParams`: `1 <= chunk_size`, `overlap < chunk_size` and
  `overlap <= chunk_size // 2 + 1`. It guarantees that `start` grows on every
  turn, on every text, so the loop ends. It is not necessary for every text:
  some other parameters still end on some texts. `OverlapBoundIsTight` shows a
  text on which one more unit of overlap makes `start` stand still. The defaults meet the
  condition (`DefaultsValid`).

Characters are Dafny `char`s, which are Unicode scalar values. Python's code
points also include lone surrogates; those are left out (see below).
`IsSpace` is Python's `str.isspace` set.

Modules:

- `PyStr`: the Python string operations used, namely slicing, `rfind`,
  `strip` and list filtering.
- `Chunker`: the recursive definition of `chunk_text` over the windows the
  loop visits.
- `ChunkerProperties`: what the chunks are.
- `ChunkerLoop`: the `while` loop as written, proved equal to the definition.
- `Records` and `Outcomes`: payloads, points, hits and failures.
- `Ingest`, `Query` and `RoundTrip`: the two endpoints and what a query
  returns for stored chunks.

## Model

| member | source | states |
|---|---|---|
| `PyStr.PySlice` | rag-api/main.py:44 | `text[start:end]` clamps both bounds to the length. Its length is that of the clamped range and character `k` is `text[start + k]`. |
| `PyStr.Strip` | rag-api/main.py:55 | The stripped string is no longer than the input. It is empty exactly when the input is all whitespace, and otherwise starts and ends with non-whitespace. |
| `PyStr.StripKeepsNonSpace` | rag-api/main.py:55 | A non-whitespace character is kept by `strip()`, and the result is a contiguous span around it. |
| `PyStr.StripIdempotent` | rag-api/main.py:61 | Stripping an already stripped chunk changes nothing, so the filter's `chunk.strip()` tests the chunk itself. |
| `PyStr.RFind` | rag-api/main.py:48-49 | `rfind` gives -1 or an index holding the character. |
| `PyStr.RFindIsLast` | rag-api/main.py:48-49 | No later index holds the character. |
| `Chunker.LastBreak` | rag-api/main.py:48-50 | The break point is -1 or the index of a `.` or newline in the window. |
| `Chunker.LastBreakIsLast` | rag-api/main.py:48-50 | No `.` or newline follows the break point in the window. |
| `Chunker.WindowEnd` | rag-api/main.py:43-53 | A window ends after its start and at most `chunk_size` later. When it is cut, it ends at least `chunk_size // 2 + 2` past its start. |
| `Chunker.WindowEndCases` | rag-api/main.py:43-53 | A window that reaches the end of the text (`start + chunk_size >= len(text)`) is never cut. Any window that ends before it is either full, with no break past the relative index `start + chunk_size // 2`, or ends one past its last break, which lies beyond that index. |
| `Chunker.WindowAdvances` | rag-api/main.py:56 | With valid parameters, `end - overlap` is past the current start, so the loop makes progress. |
| `Chunker.WindowsFrom` | rag-api/main.py:41-59 | The loop visits at least one window, and the first starts at the given start. |
| `Chunker.WindowsChain` | rag-api/main.py:41-59 | Each window starts inside the text and ends where the loop's cut rule says. The next window starts `overlap` before the previous end. After the last window the next start is past the text. |
| `Chunker.RawChunks` | rag-api/main.py:55 | The loop appends one chunk per window visited. |
| `Chunker.RawChunksAt` | rag-api/main.py:55 | Chunk `k` is window `k` stripped. |
| `Chunker.DropBlank` | rag-api/main.py:61 | The filtered list is no longer than the input, every kept chunk is non-blank and from the input, and every non-blank input chunk is kept. Order and repetitions are stated by `DropBlankAppend`. |
| `PyStr.FilterConcat` | rag-api/main.py:61 | Filtering a concatenation is filtering each part and concatenating, so the comprehension keeps order and repetitions. |
| `Chunker.DropBlankAppend` | rag-api/main.py:61 | The empty list filters to the empty list, and appending a chunk to the input appends it to the output exactly when it is not blank. |
| `Chunker.ChunkText` | rag-api/main.py:36-38 | A text no longer than `chunk_size` is returned as the only chunk, unchanged. |
| `ChunkerProperties.FilterAscending` | rag-api/main.py:61 | Filtering keeps the order of the windows. |
| `ChunkerProperties.DropBlankOfWindows` | rag-api/main.py:55-61 | Dropping blank chunks is the same as dropping the windows whose chunk is blank. |
| `ChunkerProperties.NextWindowEndsLater` | rag-api/main.py:42-56 | The window after the current one ends strictly later. |
| `ChunkerProperties.WindowsAscending` | rag-api/main.py:41-59 | The windows' starts and ends strictly increase. |
| `ChunkerProperties.WindowsCover` | rag-api/main.py:41-59 | With a non-negative overlap, every index of the text lies in some window. |
| `ChunkerProperties.WindowsWellFormed` | rag-api/main.py:42-53 | Every window the loop visits starts inside the text, is non-empty and is at most `chunk_size` long. |
| `ChunkerProperties.ChunksFromWindows` | rag-api/main.py:40-61 | A long text's chunks are, in order, the stripped non-blank windows the loop visits, taken in ascending order. |
| `ChunkerProperties.WindowChunkShape` | rag-api/main.py:43-55 | A window's chunk is the strip of a contiguous slice of at most `chunk_size` characters. |
| `ChunkerProperties.KeptChunkShape` | rag-api/main.py:55-61 | A kept chunk is non-empty, not all whitespace, its own strip, and the strip of a short slice of the text. |
| `ChunkerProperties.LongTextChunks` | rag-api/main.py:40-61 | Every chunk of a long text is non-empty, not whitespace only, already stripped, at most `chunk_size` long, and the strip of a slice of the text. |
| `ChunkerProperties.ChunkLengthBound` | rag-api/main.py:35-61 | Every chunk, of a short or a long text, is at most `chunk_size` characters. |
| `ChunkerProperties.NonSpaceInWindow` | rag-api/main.py:55 | A window holding a non-whitespace character gives a non-blank chunk, a slice of the text that still holds that character. |
| `ChunkerProperties.ShortTextCovered` | rag-api/main.py:37-38 | A short text's single chunk holds every index of the text. |
| `ChunkerProperties.CoveredByKept` | rag-api/main.py:55-61 | A non-whitespace character inside a visited window lies in a chunk the filter keeps. |
| `ChunkerProperties.LongTextCovered` | rag-api/main.py:40-61 | With a non-negative overlap, every non-whitespace character of a long text lies, at its own position, in some returned chunk. |
| `ChunkerProperties.NonSpaceCovered` | rag-api/main.py:35-61 | Chunking loses no non-whitespace character: each lies, at its own position, inside some returned chunk. |
| `ChunkerProperties.CutOnlyNearStart` | rag-api/main.py:47-53 | An early cut happens only when the full window ends before the end of the text (`start + chunk_size < len(text)`), and it ends at a position no greater than `chunk_size` in the text. |
| `ChunkerProperties.CutMissesBreak` | rag-api/main.py:50-53 | In a cut window that does not start at 0, the break character is at `start + end - 1`, past the chunk's end, so the chunk does not end with it. |
| `ChunkerProperties.OverlapBoundIsTight` | rag-api/main.py:56-59 | For `chunk_size >= 5`, with `overlap = chunk_size // 2 + 2` there is a text whose second start equals its first, so the loop would never end. |
| `ChunkerProperties.DefaultsValid` | rag-api/main.py:35 | The defaults 500 and 50 satisfy the termination condition. |
| `ChunkerLoop.CutWindow` | rag-api/main.py:43-53 | The chunk is `text[start:end]`. A window that reaches the end of the text keeps its full length. One that ends before it is either full with no break past the window-relative index `start + chunk_size // 2`, or ends one past its last break, which lies beyond that index. The end is the one the recursive definition uses. |
| `ChunkerLoop.PendingStep` | rag-api/main.py:42-56 | The chunks still to come from `start` are this window's chunk followed by those from `end - overlap`. |
| `ChunkerLoop.LoopStep` | rag-api/main.py:55-56 | One turn keeps the loop invariant: built chunks plus pending chunks are all chunks. |
| `ChunkerLoop.LoopTurn` | rag-api/main.py:43-56 | One turn moves `start` forward and keeps the invariant. |
| `ChunkerLoop.LoopDone` | rag-api/main.py:58-61 | When `start` passes the end, filtering the built list gives the definition's result. |
| `ChunkerLoop.ChunkTextLoop` | rag-api/main.py:35-61 | The `while` loop as written, including the `break` test inside it, returns exactly `ChunkText`. |
| `Ingest.ChunkPayload` | rag-api/main.py:118-122 | The payload's keys are `text`, `chunk_index` and the metadata keys. Metadata values win, and otherwise `text` is the chunk and `chunk_index` the position. |
| `Ingest.BuildPoints` | rag-api/main.py:112-123 | There are as many points as the shorter of chunks and embeddings. Point `i` holds embedding `i` and the payload of chunk `i` at index `i`. |
| `Ingest.CollectPoints` | rag-api/main.py:112-123 | The appending loop over `enumerate(zip(...))` builds exactly those points. |
| `Ingest.IngestDocument` | rag-api/main.py:101-134 | An embedding-service error fails the request. Null metadata fails it exactly when at least one point is built. Otherwise the points pair each embedding with its chunk's payload, and the reported count is the number of chunks, not of points. |
| `Query.ProjectHit` | rag-api/main.py:168-172 | Projection succeeds exactly when the payload has `text`. The score is kept, the metadata lacks `text`, and putting `text` back gives the payload. |
| `Query.ProjectHits` | rag-api/main.py:166-172 | The query succeeds exactly when every hit has `text`, with one result per hit in order. A missing `text` fails it. |
| `Query.CollectResults` | rag-api/main.py:166-172 | The appending loop, which stops at the first payload without `text`, gives the same outcome as `ProjectHits`. |
| `Query.QueryDocuments` | rag-api/main.py:153-178 | An embedding-service error or an empty embedding list fails the query. Otherwise it succeeds exactly when every hit has `text`, and fails with a missing `text` when one lacks it. On success each result is the hit's text, its score and the rest of its payload. The default limit is 10. |
| `RoundTrip.ProjectStoredPayload` | rag-api/main.py:168-171 | Querying a stored chunk payload gives the metadata's own `text` if it has one, else the chunk. The metadata returned is `chunk_index` plus the document metadata, minus `text`. |
| `RoundTrip.ChunkRoundTrip` | rag-api/main.py:118-171 | If the metadata uses neither reserved key, a stored chunk comes back unchanged, with the metadata plus its `chunk_index`. |
| `RoundTrip.ProjectStored` | rag-api/main.py:112-172 | Hits whose payloads are those of points built for any chunks all project successfully, each to its chunk (or the metadata's `text`), its score, and the chunk's `chunk_index` with the metadata minus `text`. |
| `RoundTrip.QueryIngested` | rag-api/main.py:101-178 | A query whose hits come from a successful ingest's points never fails on a missing `text`. Each result is the projection of the stored chunk it hit. |
| `RoundTrip.QueryIngestedPlain` | rag-api/main.py:101-178 | For metadata without the reserved keys, each query result returns exactly the chunk it hit and the document's metadata tagged with that chunk's index. |
| `RoundTrip.EveryChunkStored` | rag-api/main.py:105-130 | When the embedding service returns one vector per chunk, every chunk is stored. The reported count equals the number of points, and `chunk_index` numbers them unless the metadata overrides it. |

## Left out

- `Chunker.ChunkText` and `ChunkerLoop.ChunkTextLoop`: for texts longer than `chunk_size`, they require `ValidParams`. The source accepts any parameters, but with others its loop may never end (`OverlapBoundIsTight`). Outside `ValidParams` the source can also reach a negative `start` or slice bound, which Python reads from the end of the text; `PySlice` takes `nat` bounds and does not model that. The endpoints only use the defaults, which satisfy the condition.
- Point ids: `uuid.uuid4()` is random, so a `Point` has no id.
- The embedding service call (`get_embeddings`, lines 63-73) is not modelled. It is the parameter `embed`, which returns `None` for any failure: an error status, a timeout or a reply without `embeddings`.
- The store is not modelled: `qdrant_client.upsert`, `search`, the collection set-up at startup and the similarity ranking. Upsert is left out; the ingest result carries the points it would send. Search is the parameter `search`.
- Floating point: scores and vector components are exact `real`s. They are only carried, never computed.
- `Query.QueryDocuments`: `limit` is an `int`. A request with `"limit": null` is not modelled, because the store, not this code, decides what it means.
- Lone surrogates (U+D800 to U+DFFF) in request strings are left out: Dafny's `char` cannot hold them. They are neither whitespace nor break characters, so they would not change where a text is cut.
- Errors raised by the store's client during `upsert` or `search` are left out. The endpoints answer them with HTTP 500, but no `Error` value stands for them.
- `/ingest/file` is left out. It decodes an upload as UTF-8 and ingests it with file-name metadata, and decoding bytes is outside this model.
- `/health` and `/collections/info` are left out: they only report configuration or store state.
- Response message strings, logging and environment variables are left out: they do not affect the results.
- The order of keys in payloads is left out: payloads are maps, so it is not represented.
- Request validation by the web framework (a non-string `text`, a non-dict `metadata`) is left out. Only the `null` metadata the request type admits is modelled.

=== FILE: chunker.dfy ===
/**
 The RAG API's `chunk_text`: a text is cut into windows of at most
 `chunkSize` characters, neighbouring windows sharing `overlap` characters.
 A window that ends before the end of the text may be cut early after the
 last `.` or newline it holds, each window is stripped of surrounding whitespace, and
 windows that strip to nothing are dropped.

 The break point is found by `rfind` on the window, so it is an index
 relative to the window's start; the source compares it with, and uses it
 as, an absolute position in the text. The model keeps that behaviour.
 */
module Chunker {
  import opened PyStr

  const DefaultChunkSize: int := 500
  const DefaultOverlap: int := 50

  /** The characters a window may be cut after. */
  predicate IsBreak(c: char) { c == '.' || c == '\n' }

  /** No break character at any index `k >= lo` of `w`. */
  predicate NoBreakFrom(w: string, lo: int) {
    forall k :: 0 <= k < |w| && lo <= k ==> !IsBreak(w[k])
  }

  /** `max(w.rfind('.'), w.rfind('\n'))`: the index of a break in `w`, or -1. */
  function LastBreak(w: string): (bp: int)
    ensures -1 <= bp < |w|
    ensures 0 <= bp ==> IsBreak(w[bp])
  {
    Max(RFind(w, '.'), RFind(w, '\n'))
  }

  /** The break `LastBreak` finds is the last one of `w`. */
  lemma LastBreakIsLast(w: string)
    ensures NoBreakFrom(w, LastBreak(w) + 1)
  {
    RFindIsLast(w, '.');
    RFindIsLast(w, '\n');
  }

  /** Parameters that guarantee the loop makes progress on every text: the
      window start strictly increases whether or not the window is cut.
      Other parameters may still end on some texts. */
  predicate ValidParams(chunkSize: int, overlap: int) {
    1 <= chunkSize && overlap < chunkSize && overlap <= chunkSize / 2 + 1
  }

  /** One window of the loop: `text[start:end]`. */
  datatype Window = Window(start: nat, end: nat)

  /** `text[start:start + chunkSize]`, the window before any early cut. */
  function FullWindow(text: string, start: nat, chunkSize: nat): string {
    PySlice(text, start, start + chunkSize)
  }

  /** The end the loop gives the window starting at `start`: one past the
      window-relative index of the last break when the full window ends before
      the end of the text and that index lies beyond `start + chunkSize / 2`, otherwise
      `start + chunkSize`. */
  function WindowEnd(text: string, start: nat, chunkSize: int): (end: nat)
    requires 1 <= chunkSize
    ensures start < end <= start + chunkSize
    ensures end == start + chunkSize || start + chunkSize / 2 + 2 <= end
  {
    var end := start + chunkSize;
    if end < |text| then
      var chunk := PySlice(text, start, end);
      var breakPoint := LastBreak(chunk);
      if breakPoint > start + chunkSize / 2 then breakPoint + 1 else end
    else end
  }

  /** The cut rule stated without `rfind`: a window that reaches the end of
      the text always keeps its full length; one that ends before it is
      either full and has no break past the window-relative index
      `start + chunkSize / 2`, or ends one past its last break, which lies at
      a window-relative index beyond that. */
  predicate CutRule(text: string, start: nat, chunkSize: int, end: int)
    requires 1 <= chunkSize
  {
    var w := FullWindow(text, start, chunkSize);
    && (|text| <= start + chunkSize ==> end == start + chunkSize)
    && (start + chunkSize < |text| ==>
          || (end == start + chunkSize && NoBreakFrom(w, start + chunkSize / 2 + 1))
          || (&& start + chunkSize / 2 + 2 <= end <= chunkSize
              && IsBreak(w[end - 1]) && NoBreakFrom(w, end)))
  }

  /** The window end follows the cut rule. */
  lemma WindowEndCases(text: string, start: nat, chunkSize: int)
    requires 1 <= chunkSize
    ensures CutRule(text, start, chunkSize, WindowEnd(text, start, chunkSize))
  {
    LastBreakIsLast(FullWindow(text, start, chunkSize));
  }

  /** The next start never falls back: with valid parameters it lies beyond
      the current one. */
  lemma WindowAdvances(text: string, start: nat, chunkSize: int, overlap: int)
    requires ValidParams(chunkSize, overlap)
    ensures WindowEnd(text, start, chunkSize) - overlap > start
  {
  }

  /** The windows the loop visits from `start` until the next start reaches
      the end of the text. */
  function WindowsFrom(text: string, start: nat, chunkSize: int, overlap: int): (ws: seq<Window>)
    requires ValidParams(chunkSize, overlap)
    requires start < |text|
    ensures 1 <= |ws| && ws[0].start == start
    decreases |text| - start
  {
    var end := WindowEnd(text, start, chunkSize);
    WindowAdvances(text, start, chunkSize, overlap);
    var next := end - overlap;
    if next >= |text| then [Window(start, end)]
    else [Window(start, end)] + WindowsFrom(text, next, chunkSize, overlap)
  }

  /** Each window the loop visits starts inside the text, ends where
      `WindowEnd` says, and is followed by one starting `overlap` before its
      end; after the last one the next start would be past the text. */
  lemma {:induction false} WindowsChain(text: string, start: nat, chunkSize: int, overlap: int)
    requires ValidParams(chunkSize, overlap) && start < |text|
    ensures var ws := WindowsFrom(text, start, chunkSize, overlap);
            && (forall k :: 0 <= k < |ws| ==>
                  && start <= ws[k].start < |text|
                  && ws[k].end == WindowEnd(text, ws[k].start, chunkSize))
            && (forall i, j :: 0 <= i < j < |ws| && j == i + 1 ==> ws[j].start == ws[i].end - overlap)
            && ws[|ws| - 1].end - overlap >= |text|
    decreases |text| - start
  {
    var ws := WindowsFrom(text, start, chunkSize, overlap);
    var end := WindowEnd(text, start, chunkSize);
    WindowAdvances(text, start, chunkSize, overlap);
    var next: nat := end - overlap;
    if next < |text| {
      WindowsChain(text, next, chunkSize, overlap);
      var rest := WindowsFrom(text, next, chunkSize, overlap);
      assert ws == [Window(start, end)] + rest;
    }
  }

  /** The text a window contributes: `text[start:end].strip()`. */
  function WindowChunk(text: string, w: Window): string {
    Strip(PySlice(text, w.start, w.end))
  }

  /** The list `chunks` the loop builds, one entry per window. */
  function RawChunks(text: string, ws: seq<Window>): (chunks: seq<string>)
    ensures |chunks| == |ws|
  {
    if ws == [] then [] else [WindowChunk(text, ws[0])] + RawChunks(text, ws[1..])
  }

  /** Entry `k` of `RawChunks` is the chunk of window `k`. */
  lemma {:induction false} RawChunksAt(text: string, ws: seq<Window>)
    ensures forall k :: 0 <= k < |ws| ==> RawChunks(text, ws)[k] == WindowChunk(text, ws[k])
  {
    if ws != [] {
      RawChunksAt(text, ws[1..]);
    }
  }

  predicate NonBlank(s: string) { Strip(s) != [] }

  /** `[chunk for chunk in chunks if chunk.strip()]` */
  function DropBlank(chunks: seq<string>): (kept: seq<string>)
    ensures |kept| <= |chunks|
    ensures forall k :: 0 <= k < |kept| ==> NonBlank(kept[k]) && kept[k] in chunks
    ensures forall c :: c in chunks && NonBlank(c) ==> c in kept
  {
    Filter(chunks, NonBlank)
  }

  /** The comprehension visits the chunks in order: appending a chunk to the
      input appends it to the output exactly when it is not blank. */
  lemma DropBlankAppend(chunks: seq<string>, c: string)
    ensures DropBlank([]) == []
    ensures DropBlank(chunks + [c]) == DropBlank(chunks) + (if NonBlank(c) then [c] else [])
  {
    FilterConcat(chunks, [c], NonBlank);
    assert Filter([c], NonBlank) == (if NonBlank(c) then [c] else []) by {
      assert [c][1..] == [];
    }
  }

  /** `chunk_text(text, chunk_size, overlap)` */
  function ChunkText(text: string, chunkSize: int := DefaultChunkSize,
                     overlap: int := DefaultOverlap): (chunks: seq<string>)
    requires |text| <= chunkSize || ValidParams(chunkSize, overlap)
    ensures |text| <= chunkSize ==> chunks == [text]
  {
    if |text| <= chunkSize then [text]
    else DropBlank(RawChunks(text, WindowsFrom(text, 0, chunkSize, overlap)))
  }
}

=== FILE: chunker_loop.dfy ===
/**
 `chunk_text` written as the source's `while` loop, statement for statement,
 and proved to compute the same list as the recursive definition.
 */
module ChunkerLoop {
  import opened PyStr
  import opened Chunker

  /** `main.py` lines 43-53 of the loop body: the window at `start`, possibly
      cut early, and where it ends, following the cut rule. */
  method CutWindow(text: string, start: nat, chunkSize: int) returns (chunk: string, end: nat)
    requires 1 <= chunkSize
    ensures chunk == PySlice(text, start, end)
    ensures CutRule(text, start, chunkSize, end)
    ensures end == WindowEnd(text, start, chunkSize)
  {
    end := start + chunkSize;
    chunk := PySlice(text, start, end);
    if end < |text| {
      var lastPeriod := RFind(chunk, '.');
      var lastNewline := RFind(chunk, '\n');
      var breakPoint := Max(lastPeriod, lastNewline);
      assert chunk == FullWindow(text, start, chunkSize);
      if breakPoint > start + chunkSize / 2 {
        chunk := PySlice(text, start, breakPoint + 1);
        end := breakPoint + 1;
      }
    }
    assert end == WindowEnd(text, start, chunkSize);
    WindowEndCases(text, start, chunkSize);
  }

  /** The chunks the loop has still to produce once it reaches `start`. */
  function Pending(text: string, start: int, chunkSize: int, overlap: int): seq<string>
    requires ValidParams(chunkSize, overlap)
  {
    if start < 0 || |text| <= start then [] else RawChunks(text, WindowsFrom(text, start, chunkSize, overlap))
  }

  /** The windows from `start` are this one followed by those from the next start. */
  lemma WindowsFromStep(text: string, start: nat, end: nat, chunkSize: int, overlap: int)
    requires ValidParams(chunkSize, overlap) && start < |text|
    requires end == WindowEnd(text, start, chunkSize)
    ensures end - overlap > start
    ensures WindowsFrom(text, start, chunkSize, overlap)
            == [Window(start, end)] + (if end - overlap < |text| then WindowsFrom(text, end - overlap, chunkSize, overlap) else [])
  {
    WindowAdvances(text, start, chunkSize, overlap);
  }

  /** Dropping the head of a cons; a separate lemma so the solver does not
      search for this sequence fact inside larger proofs. */
  lemma DropFirst<T>(x: T, xs: seq<T>)
    ensures ([x] + xs)[1..] == xs
  {
  }

  /** `RawChunks` of a non-empty list: the first window's chunk, then the rest. */
  lemma RawChunksCons(text: string, w: Window, ws: seq<Window>)
    ensures RawChunks(text, [w] + ws) == [WindowChunk(text, w)] + RawChunks(text, ws)
  {
    DropFirst(w, ws);
  }

  /** Equal window lists give equal chunk lists. Stated apart so the solver
      rewrites `RawChunks` of a long window expression in one step, which it
      otherwise finds only slowly. */
  lemma RawChunksOf(text: string, ws: seq<Window>, ws': seq<Window>)
    requires ws == ws'
    ensures RawChunks(text, ws) == RawChunks(text, ws')
  {
  }

  /** One turn of the loop produces this window's chunk and moves on to the
      next start. */
  lemma {:induction false} PendingStep(text: string, start: nat, end: nat, next: int, piece: string,
                                       chunkSize: int, overlap: int)
    requires ValidParams(chunkSize, overlap) && start < |text|
    requires end == WindowEnd(text, start, chunkSize) && next == end - overlap
    requires piece == WindowChunk(text, Window(start, end))
    ensures Pending(text, start, chunkSize, overlap) == [piece] + Pending(text, next, chunkSize, overlap)
  {
    WindowsFromStep(text, start, end, chunkSize, overlap);
    var w := Window(start, end);
    var rest := if next < |text| then WindowsFrom(text, next, chunkSize, overlap) else [];
    RawChunksOf(text, WindowsFrom(text, start, chunkSize, overlap), [w] + rest);
    RawChunksCons(text, w, rest);
    assert Pending(text, next, chunkSize, overlap) == RawChunks(text, rest);
  }

  /** Moving the first pending element to the end of the built list keeps
      their concatenation. */
  lemma ShiftOne<T>(built: seq<T>, x: T, built': seq<T>, pending: seq<T>, pending': seq<T>, all: seq<T>)
    requires built + pending == all
    requires pending == [x] + pending' && built' == built + [x]
    ensures built' + pending' == all
  {
    assert built + ([x] + pending') == (built + [x]) + pending';
  }

  /** The loop invariant survives one turn: the chunk just appended is the
      first of those still pending. */
  lemma {:induction false} LoopStep(text: string, chunks: seq<string>, piece: string, chunks': seq<string>,
                 start: nat, end: nat, next: int, chunkSize: int, overlap: int, all: seq<string>)
    requires ValidParams(chunkSize, overlap) && start < |text|
    requires end == WindowEnd(text, start, chunkSize) && piece == WindowChunk(text, Window(start, end))
    requires chunks' == chunks + [piece] && next == end - overlap
    requires chunks + Pending(text, start, chunkSize, overlap) == all
    ensures chunks' + Pending(text, next, chunkSize, overlap) == all
  {
    PendingStep(text, start, end, next, piece, chunkSize, overlap);
    ShiftOne(chunks, piece, chunks', Pending(text, start, chunkSize, overlap),
             Pending(text, next, chunkSize, overlap), all);
  }

  /** When the loop stops, filtering what it built gives `chunk_text`'s result. */
  lemma {:induction false} LoopDone(text: string, chunks: seq<string>, start: int, chunkSize: int, overlap: int,
                 all: seq<string>)
    requires ValidParams(chunkSize, overlap) && chunkSize < |text| && |text| <= start
    requires all == Pending(text, 0, chunkSize, overlap)
    requires chunks + Pending(text, start, chunkSize, overlap) == all
    ensures DropBlank(chunks) == ChunkText(text, chunkSize, overlap)
  {
    assert chunks + Pending(text, start, chunkSize, overlap) == chunks;
  }

  /** `main.py` lines 43-56: one turn of the loop appends the stripped window and moves
      `start` to `overlap` characters before the window's end. */
  method LoopTurn(text: string, chunks: seq<string>, start: nat, chunkSize: int, overlap: int,
                  ghost all: seq<string>)
    returns (chunks': seq<string>, next: int)
    requires ValidParams(chunkSize, overlap) && start < |text|
    requires chunks + Pending(text, start, chunkSize, overlap) == all
    ensures start < next
    ensures chunks' + Pending(text, next, chunkSize, overlap) == all
  {
    var chunk, end := CutWindow(text, start, chunkSize);
    WindowAdvances(text, start, chunkSize, overlap);
    chunks' := chunks + [Strip(chunk)];
    next := end - overlap;
    assert Strip(chunk) == WindowChunk(text, Window(start, end));
    LoopStep(text, chunks, Strip(chunk), chunks', start, end, next, chunkSize, overlap, all);
  }

  method ChunkTextLoop(text: string, chunkSize: int := DefaultChunkSize,
                       overlap: int := DefaultOverlap) returns (result: seq<string>)
    requires |text| <= chunkSize || ValidParams(chunkSize, overlap)
    ensures result == ChunkText(text, chunkSize, overlap)
  {
    if |text| <= chunkSize {
      return [text];
    }
    ghost var all := Pending(text, 0, chunkSize, overlap);
    var chunks: seq<string> := [];
    var start: int := 0;
    while start < |text|
      invariant 0 <= start
      invariant chunks + Pending(text, start, chunkSize, overlap) == all
      decreases |text| - start
    {
      chunks, start := LoopTurn(text, chunks, start, chunkSize, overlap, all);
      // The source repeats the loop condition inside the body.
      if start >= |text| {
        break;
      }
    }
    LoopDone(text, chunks, start, chunkSize, overlap, all);
    result := DropBlank(chunks);
  }
}

=== FILE: chunker_props.dfy ===
/**
 What `chunk_text` promises about its result: length bounds, that each chunk
 is the strip of one contiguous window of the text, that no chunk is blank,
 that windows come in order, and that together they cover the text.
 */
module ChunkerProperties {
  import opened PyStr
  import opened Chunker

  /** Starts and ends both strictly increase along the list. */
  predicate Ascending(ws: seq<Window>) {
    forall i, j :: 0 <= i < j < |ws| ==> ws[i].start < ws[j].start && ws[i].end < ws[j].end
  }

  /** Whether the chunk of window `w` survives the final filter. */
  predicate KeepsWindow(text: string, w: Window) {
    NonBlank(WindowChunk(text, w))
  }

  /** The windows whose chunk survives the final filter, in loop order. */
  function KeptWindows(text: string, ws: seq<Window>): (kept: seq<Window>)
    ensures |kept| <= |ws|
    ensures forall k :: 0 <= k < |kept| ==> kept[k] in ws && NonBlank(WindowChunk(text, kept[k]))
    ensures forall w :: w in ws && NonBlank(WindowChunk(text, w)) ==> w in kept
  {
    Filter(ws, w => KeepsWindow(text, w))
  }

  /** Putting in front of an ascending list a window below all of it keeps
      the list ascending. */
  lemma AscendingCons(w: Window, rest: seq<Window>)
    requires Ascending(rest)
    requires forall k :: 0 <= k < |rest| ==> w.start < rest[k].start && w.end < rest[k].end
    ensures Ascending([w] + rest)
  {
    var ys := [w] + rest;
    forall i, j | 0 <= i < j < |ys|
      ensures ys[i].start < ys[j].start && ys[i].end < ys[j].end
    {
      assert ys[j] == rest[j - 1];
      if 0 < i {
        assert ys[i] == rest[i - 1];
      }
    }
  }

  /** Keeping some of an ascending list keeps it ascending. */
  lemma {:induction false} FilterAscending(ws: seq<Window>, keep: Window -> bool)
    requires Ascending(ws)
    ensures Ascending(Filter(ws, keep))
  {
    if ws != [] {
      var tail := ws[1..];
      assert Ascending(tail) by {
        forall i, j | 0 <= i < j < |tail|
          ensures tail[i].start < tail[j].start && tail[i].end < tail[j].end
        {
          assert tail[i] == ws[i + 1] && tail[j] == ws[j + 1];
        }
      }
      FilterAscending(tail, keep);
      var rest := Filter(tail, keep);
      if keep(ws[0]) {
        forall k | 0 <= k < |rest|
          ensures ws[0].start < rest[k].start && ws[0].end < rest[k].end
        {
          var j :| 0 <= j < |tail| && tail[j] == rest[k];
          assert ws[j + 1] == rest[k];
        }
        AscendingCons(ws[0], rest);
        assert Filter(ws, keep) == [ws[0]] + rest;
      } else {
        assert Filter(ws, keep) == rest;
      }
    }
  }

  /** The window each returned chunk of a long text was cut from. */
  function ChunkWindows(text: string, chunkSize: int, overlap: int): seq<Window>
    requires ValidParams(chunkSize, overlap) && chunkSize < |text|
  {
    KeptWindows(text, WindowsFrom(text, 0, chunkSize, overlap))
  }

  /** Filtering the stripped chunks is filtering the windows they came from. */
  lemma {:induction false} DropBlankOfWindows(text: string, ws: seq<Window>)
    ensures DropBlank(RawChunks(text, ws)) == RawChunks(text, KeptWindows(text, ws))
  {
    if ws != [] {
      DropBlankOfWindows(text, ws[1..]);
      assert RawChunks(text, ws)[1..] == RawChunks(text, ws[1..]);
    }
  }

  /** The end of the next window lies beyond the end of the current one. */
  lemma NextWindowEndsLater(text: string, start: nat, chunkSize: int, overlap: int)
    requires ValidParams(chunkSize, overlap)
    requires WindowEnd(text, start, chunkSize) - overlap >= 0
    ensures WindowEnd(text, WindowEnd(text, start, chunkSize) - overlap, chunkSize)
            > WindowEnd(text, start, chunkSize)
  {
  }

  /** Each window starts and ends after the one before it. */
  ghost predicate StepAscending(ws: seq<Window>) {
    forall i, j :: 0 <= i < j < |ws| && j == i + 1 ==> ws[i].start < ws[j].start && ws[i].end < ws[j].end
  }

  /** Ascending from one step to the next is ascending throughout. */
  lemma {:induction false} StepAscendingIsAscending(ws: seq<Window>)
    requires StepAscending(ws)
    ensures Ascending(ws)
  {
    if 1 < |ws| {
      StepAscendingIsAscending(ws[1..]);
      forall j | 1 <= j < |ws|
        ensures ws[0].start < ws[j].start && ws[0].end < ws[j].end
      {
        assert ws[1..][0] == ws[1];
        if 1 < j {
          assert ws[1..][j - 1] == ws[j];
        }
      }
    }
  }

  /** The loop emits windows in increasing order of start and of end. */
  lemma WindowsAscending(text: string, start: nat, chunkSize: int, overlap: int)
    requires ValidParams(chunkSize, overlap) && start < |text|
    ensures Ascending(WindowsFrom(text, start, chunkSize, overlap))
  {
    var ws := WindowsFrom(text, start, chunkSize, overlap);
    WindowsChain(text, start, chunkSize, overlap);
    forall i, j | 0 <= i < j < |ws| && j == i + 1
      ensures ws[i].start < ws[j].start && ws[i].end < ws[j].end
    {
      WindowAdvances(text, ws[i].start, chunkSize, overlap);
      NextWindowEndsLater(text, ws[i].start, chunkSize, overlap);
    }
    StepAscendingIsAscending(ws);
  }

  /** Index `i` lies in one of the windows. */
  ghost predicate Covered(ws: seq<Window>, i: int) {
    exists k :: 0 <= k < |ws| && ws[k].start <= i < ws[k].end
  }

  /** `i` lies in window `k`, so it is covered. */
  lemma CoveredAt(ws: seq<Window>, k: int, i: int)
    requires 0 <= k < |ws| && ws[k].start <= i < ws[k].end
    ensures Covered(ws, i)
  {
  }

  /** No window starts after the end of the one before it. */
  ghost predicate Gapless(ws: seq<Window>) {
    forall i, j :: 0 <= i < j < |ws| && j == i + 1 ==> ws[j].start <= ws[i].end
  }

  /** Gapless windows cover everything from the first start to the last end. */
  lemma {:induction false} GaplessCovers(ws: seq<Window>, i: int)
    requires 1 <= |ws| && Gapless(ws) && ws[0].start <= i < ws[|ws| - 1].end
    ensures Covered(ws, i)
  {
    if i < ws[0].end {
      CoveredAt(ws, 0, i);
    } else {
      var rest := ws[1..];
      assert rest[0] == ws[1];
      assert Gapless(rest) by {
        forall a, b | 0 <= a < b < |rest| && b == a + 1
          ensures rest[b].start <= rest[a].end
        {
          assert rest[a] == ws[a + 1] && rest[b] == ws[b + 1];
        }
      }
      GaplessCovers(rest, i);
      var k :| 0 <= k < |rest| && rest[k].start <= i < rest[k].end;
      CoveredAt(ws, k + 1, i);
    }
  }

  /** With a non-negative overlap every index of the text lies in some window. */
  lemma WindowsCover(text: string, chunkSize: int, overlap: int)
    requires ValidParams(chunkSize, overlap) && 0 < |text| && 0 <= overlap
    ensures forall i :: 0 <= i < |text| ==> Covered(WindowsFrom(text, 0, chunkSize, overlap), i)
  {
    var ws := WindowsFrom(text, 0, chunkSize, overlap);
    WindowsChain(text, 0, chunkSize, overlap);
    assert Gapless(ws);
    forall i | 0 <= i < |text|
      ensures Covered(ws, i)
    {
      GaplessCovers(ws, i);
    }
  }

  /** A window that starts inside the text and is non-empty and at most
      `chunkSize` long. */
  predicate WellFormed(text: string, chunkSize: int, w: Window) {
    w.start < |text| && w.start < w.end <= w.start + chunkSize
  }

  /** Every window the loop visits is well formed. */
  lemma WindowsWellFormed(text: string, chunkSize: int, overlap: int)
    requires ValidParams(chunkSize, overlap) && 0 < |text|
    ensures forall w :: w in WindowsFrom(text, 0, chunkSize, overlap) ==> WellFormed(text, chunkSize, w)
  {
    var ws := WindowsFrom(text, 0, chunkSize, overlap);
    WindowsChain(text, 0, chunkSize, overlap);
    forall w | w in ws
      ensures WellFormed(text, chunkSize, w)
    {
      var k :| 0 <= k < |ws| && ws[k] == w;
      assert w.end == WindowEnd(text, w.start, chunkSize);
    }
  }

  /** A long text's chunks are, in order, the stripped windows that are not
      blank; the windows they come from ascend and each is one the loop visits. */
  lemma ChunksFromWindows(text: string, chunkSize: int, overlap: int)
    requires ValidParams(chunkSize, overlap) && chunkSize < |text|
    ensures var chunks := ChunkText(text, chunkSize, overlap);
            var spans := ChunkWindows(text, chunkSize, overlap);
            && |chunks| == |spans|
            && (forall k :: 0 <= k < |spans| ==>
                  && chunks[k] == WindowChunk(text, spans[k])
                  && spans[k] in WindowsFrom(text, 0, chunkSize, overlap))
            && Ascending(spans)
  {
    var ws := WindowsFrom(text, 0, chunkSize, overlap);
    DropBlankOfWindows(text, ws);
    RawChunksAt(text, KeptWindows(text, ws));
    WindowsAscending(text, 0, chunkSize, overlap);
    FilterAscending(ws, w => KeepsWindow(text, w));
  }

  /** A window's chunk is the strip of a contiguous slice of at most `chunkSize` characters. */
  lemma WindowChunkShape(text: string, w: Window, chunkSize: int)
    requires 1 <= chunkSize && WellFormed(text, chunkSize, w)
    ensures var hi := Min(w.end, |text|);
            && w.start < hi <= |text| && hi - w.start <= chunkSize
            && WindowChunk(text, w) == Strip(text[w.start..hi])
            && |WindowChunk(text, w)| <= chunkSize
  {
  }

  /** `c` is the strip of a slice of `text` no longer than `bound` characters. */
  ghost predicate StripOfSlice(text: string, c: string, bound: int) {
    exists lo, hi :: 0 <= lo < hi <= |text| && hi - lo <= bound && c == Strip(text[lo..hi])
  }

  /** `c` is a slice of `text` that holds index `i`. */
  ghost predicate SliceAround(text: string, c: string, i: int) {
    exists lo, hi :: 0 <= lo <= i < hi <= |text| && c == text[lo..hi]
  }

  /** A window chunk that survives the filter is non-empty, not whitespace
      only, its own strip, and the strip of a short slice of the text. */
  lemma KeptChunkShape(text: string, w: Window, chunkSize: int)
    requires 1 <= chunkSize && WellFormed(text, chunkSize, w)
    requires NonBlank(WindowChunk(text, w))
    ensures var c := WindowChunk(text, w);
            && 0 < |c| <= chunkSize && !AllSpace(c) && Strip(c) == c
            && StripOfSlice(text, c, chunkSize)
  {
    WindowChunkShape(text, w, chunkSize);
    StripIdempotent(PySlice(text, w.start, w.end));
    var hi := Min(w.end, |text|);
    assert WindowChunk(text, w) == Strip(text[w.start..hi]);
  }

  /** Each chunk of a long text is non-empty, not whitespace only, its own
      strip, at most `chunkSize` long, and the strip of a contiguous slice of
      the text no longer than `chunkSize`. */
  lemma LongTextChunks(text: string, chunkSize: int, overlap: int)
    requires ValidParams(chunkSize, overlap) && chunkSize < |text|
    ensures var chunks := ChunkText(text, chunkSize, overlap);
            forall k :: 0 <= k < |chunks| ==>
              && 0 < |chunks[k]| <= chunkSize
              && !AllSpace(chunks[k])
              && Strip(chunks[k]) == chunks[k]
              && StripOfSlice(text, chunks[k], chunkSize)
  {
    var chunks := ChunkText(text, chunkSize, overlap);
    var spans := ChunkWindows(text, chunkSize, overlap);
    ChunksFromWindows(text, chunkSize, overlap);
    WindowsWellFormed(text, chunkSize, overlap);
    forall k | 0 <= k < |chunks|
      ensures && 0 < |chunks[k]| <= chunkSize
              && !AllSpace(chunks[k])
              && Strip(chunks[k]) == chunks[k]
              && StripOfSlice(text, chunks[k], chunkSize)
    {
      assert WellFormed(text, chunkSize, spans[k]);
      KeptChunkShape(text, spans[k], chunkSize);
    }
  }

  /** Every chunk, for short and long texts alike, is at most `chunkSize` long. */
  lemma ChunkLengthBound(text: string, chunkSize: int, overlap: int)
    requires |text| <= chunkSize || ValidParams(chunkSize, overlap)
    ensures forall c :: c in ChunkText(text, chunkSize, overlap) ==> |c| <= chunkSize
  {
    if chunkSize < |text| {
      LongTextChunks(text, chunkSize, overlap);
    }
  }

  /** A window holding a non-whitespace character at index `i` yields a
      chunk that survives the filter and holds index `i`. */
  lemma NonSpaceInWindow(text: string, w: Window, i: int)
    requires w.start <= i < w.end && i < |text| && !IsSpace(text[i])
    ensures NonBlank(WindowChunk(text, w))
    ensures SliceAround(text, WindowChunk(text, w), i)
  {
    var hi := Min(w.end, |text|);
    var s := text[w.start..hi];
    assert PySlice(text, w.start, w.end) == s;
    StripSliceKeeps(text, w.start, hi, i);
    var span := StripSpan(s);
    var lo', hi' := w.start + span.0, w.start + span.1;
    assert Strip(s) == text[lo'..hi'];
    StripIdempotent(s);
    assert SliceAround(text, Strip(s), i);
  }

  /** The short-text case of `NonSpaceCovered`: the one chunk is the whole text. */
  lemma ShortTextCovered(text: string, chunkSize: int, overlap: int, i: int)
    requires |text| <= chunkSize && 0 <= i < |text|
    ensures SliceAround(text, ChunkText(text, chunkSize, overlap)[0], i)
  {
    assert ChunkText(text, chunkSize, overlap)[0] == text[0..|text|];
  }

  /** A non-whitespace character inside one of the windows lies in the
      chunk of some window that survives the filter. */
  lemma CoveredByKept(text: string, ws: seq<Window>, i: int)
    requires Covered(ws, i) && 0 <= i < |text| && !IsSpace(text[i])
    ensures var kept := KeptWindows(text, ws);
            exists k :: 0 <= k < |kept| && SliceAround(text, WindowChunk(text, kept[k]), i)
  {
    var kept := KeptWindows(text, ws);
    var j :| 0 <= j < |ws| && ws[j].start <= i < ws[j].end;
    var w := ws[j];
    NonSpaceInWindow(text, w, i);
    assert w in ws;
    var k :| 0 <= k < |kept| && kept[k] == w;
  }

  /** The long-text case of `NonSpaceCovered`, for one index. */
  lemma LongTextCovered(text: string, chunkSize: int, overlap: int, i: int)
    requires ValidParams(chunkSize, overlap) && 0 <= overlap && chunkSize < |text|
    requires 0 <= i < |text| && !IsSpace(text[i])
    ensures var chunks := ChunkText(text, chunkSize, overlap);
            exists k :: 0 <= k < |chunks| && SliceAround(text, chunks[k], i)
  {
    var chunks := ChunkText(text, chunkSize, overlap);
    var ws := WindowsFrom(text, 0, chunkSize, overlap);
    var spans := ChunkWindows(text, chunkSize, overlap);
    WindowsCover(text, chunkSize, overlap);
    ChunksFromWindows(text, chunkSize, overlap);
    CoveredByKept(text, ws, i);
    var k :| 0 <= k < |spans| && SliceAround(text, WindowChunk(text, spans[k]), i);
    assert chunks[k] == WindowChunk(text, spans[k]);
  }

  /** With a non-negative overlap, every non-whitespace character of the text
      lies inside some returned chunk, at its own position in the text. */
  lemma NonSpaceCovered(text: string, chunkSize: int, overlap: int)
    requires |text| <= chunkSize || (ValidParams(chunkSize, overlap) && 0 <= overlap)
    ensures var chunks := ChunkText(text, chunkSize, overlap);
            forall i :: 0 <= i < |text| && !IsSpace(text[i]) ==>
              exists k :: 0 <= k < |chunks| && SliceAround(text, chunks[k], i)
  {
    var chunks := ChunkText(text, chunkSize, overlap);
    forall i | 0 <= i < |text| && !IsSpace(text[i])
      ensures exists k :: 0 <= k < |chunks| && SliceAround(text, chunks[k], i)
    {
      if |text| <= chunkSize {
        ShortTextCovered(text, chunkSize, overlap, i);
      } else {
        LongTextCovered(text, chunkSize, overlap, i);
      }
    }
  }

  /** The cut is taken only in windows that start in the first half-window of
      the text: the relative break index can never reach further. */
  lemma CutOnlyNearStart(text: string, start: nat, chunkSize: int)
    requires 1 <= chunkSize
    requires WindowEnd(text, start, chunkSize) < start + chunkSize
    ensures start + chunkSize < |text|
    ensures start + chunkSize / 2 + 2 <= WindowEnd(text, start, chunkSize) <= chunkSize
  {
    WindowEndCases(text, start, chunkSize);
  }

  /** In a cut window that does not start at 0, the break character sits at
      `start + end - 1`, past the window's own end, so the chunk does not end
      with it. */
  lemma CutMissesBreak(text: string, start: nat, chunkSize: int)
    requires 1 <= chunkSize && 0 < start
    requires WindowEnd(text, start, chunkSize) < start + chunkSize
    ensures var end := WindowEnd(text, start, chunkSize);
            && end <= start + end - 1 < |text|
            && IsBreak(text[start + end - 1])
  {
    var end := WindowEnd(text, start, chunkSize);
    var w := FullWindow(text, start, chunkSize);
    WindowEndCases(text, start, chunkSize);
    assert w[end - 1] == text[start + end - 1];
  }

  /** A text of `n` letters with one `.` at index `dot`. */
  function DotAt(n: nat, dot: nat): string {
    seq(n, i => if i == dot then '.' else 'a')
  }

  /** The bound `overlap <= chunkSize / 2 + 1` cannot be relaxed: one more and
      a text whose first window is cut just past the midpoint makes the next
      start equal the current one, so the loop never ends. */
  lemma OverlapBoundIsTight(chunkSize: int)
    requires 5 <= chunkSize
    ensures var overlap := chunkSize / 2 + 2;
            && overlap < chunkSize && !ValidParams(chunkSize, overlap)
            && WindowEnd(DotAt(chunkSize + 1, chunkSize / 2 + 1), 0, chunkSize) - overlap == 0
  {
    var text := DotAt(chunkSize + 1, chunkSize / 2 + 1);
    var w := FullWindow(text, 0, chunkSize);
    WindowEndCases(text, 0, chunkSize);
    assert IsBreak(w[chunkSize / 2 + 1]);
    assert forall k :: 0 <= k < |w| && k != chunkSize / 2 + 1 ==> !IsBreak(w[k]);
  }

  /** The default parameters, 500 and 50, satisfy the loop's precondition. */
  lemma DefaultsValid()
    ensures ValidParams(DefaultChunkSize, DefaultOverlap)
  {
  }
}

=== FILE: ingest.dfy ===
/**
 The `/ingest` endpoint: the document text is chunked with the default
 parameters, the chunks are embedded, and one point per (chunk, embedding)
 pair is written to the vector store. The embedding service is a parameter.
 */
module Ingest {
  import opened PyStr
  import opened Chunker
  import opened Outcomes
  import opened Records

  /** `{"text": chunk, "chunk_index": index, **metadata}`: later keys win, so
      a metadata key named `text` or `chunk_index` replaces the chunk's own. */
  function ChunkPayload(chunk: string, index: nat, metadata: Payload): (p: Payload)
    ensures p.Keys == {TextKey, ChunkIndexKey} + metadata.Keys
    ensures forall k :: k in metadata ==> p[k] == metadata[k]
    ensures TextKey !in metadata ==> p[TextKey] == Str(chunk)
    ensures ChunkIndexKey !in metadata ==> p[ChunkIndexKey] == Int(index)
  {
    map[TextKey := Str(chunk), ChunkIndexKey := Int(index)] + metadata
  }

  /** The points of `zip(chunks, embeddings)`, numbered by `enumerate`: as
      many as the shorter list, point `i` pairing embedding `i` with chunk `i`. */
  function BuildPoints(chunks: seq<string>, embeddings: seq<Embedding>, metadata: Payload): (points: seq<Point>)
    ensures |points| == Min(|chunks|, |embeddings|)
    ensures forall i :: 0 <= i < |points| ==>
              points[i].vector == embeddings[i] && points[i].payload == ChunkPayload(chunks[i], i, metadata)
  {
    seq(Min(|chunks|, |embeddings|), i requires 0 <= i < Min(|chunks|, |embeddings|) =>
          Point(embeddings[i], ChunkPayload(chunks[i], i, metadata)))
  }

  /** `main.py` lines 112-123 as written: the points appended one by one while walking
      both lists together. */
  method CollectPoints(chunks: seq<string>, embeddings: seq<Embedding>, metadata: Payload)
    returns (points: seq<Point>)
    ensures points == BuildPoints(chunks, embeddings, metadata)
  {
    points := [];
    var i := 0;
    while i < |chunks| && i < |embeddings|
      invariant i <= |chunks| && i <= |embeddings| && |points| == i
      invariant forall k :: 0 <= k < i ==>
                  points[k] == Point(embeddings[k], ChunkPayload(chunks[k], k, metadata))
    {
      points := points + [Point(embeddings[i], ChunkPayload(chunks[i], i, metadata))];
      i := i + 1;
    }
  }

  /** What a successful ingest writes and reports: the points sent to the
      store and the `chunks` count of the response. */
  datatype Ingested = Ingested(points: seq<Point>, chunks: nat)

  /** `ingest_document`. `embed` stands for the embedding service: `None`
      on any failure, whether an error status, a timeout or a reply without
      `embeddings`. `metadata` is `None` when the
      request carries `"metadata": null`. */
  function IngestDocument(text: string, metadata: Option<Payload>,
                          embed: seq<string> -> Option<seq<Embedding>>): (r: Result<Ingested, Error>)
    ensures var chunks := ChunkText(text);
            var embedded := embed(chunks);
            && (embedded.None? ==> r == Failure(EmbeddingServiceError))
            && (embedded.Some? ==>
                  var n := Min(|chunks|, |embedded.value|);
                  && (r.Failure? <==> metadata.None? && 0 < n)
                  && (r.Failure? ==> r.error == MetadataNotMapping)
                  && (r.Success? ==>
                        && r.value.chunks == |chunks|
                        && |r.value.points| == n
                        && forall i :: 0 <= i < n ==>
                             && r.value.points[i].vector == embedded.value[i]
                             && r.value.points[i].payload
                                == ChunkPayload(chunks[i], i, if metadata.Some? then metadata.value else map[])))
  {
    var chunks := ChunkText(text);
    var embedded := embed(chunks);
    if embedded.None? then Failure(EmbeddingServiceError)
    else
      var n := Min(|chunks|, |embedded.value|);
      if metadata.None? && 0 < n then Failure(MetadataNotMapping)
      else
        var md := if metadata.Some? then metadata.value else map[];
        Success(Ingested(BuildPoints(chunks, embedded.value, md), |chunks|))
  }
}

=== FILE: outcomes.dfy ===
/**
 Optional values and results that carry either a value or the reason a
 request failed.
 */
module Outcomes {

  datatype Option<+T> = None | Some(value: T)

  datatype Result<+R, +E> = Success(value: R) | Failure(error: E)
}

=== FILE: pystr.dfy ===
/**
 The pieces of Python's `str` behaviour that the RAG API's chunker relies on:
 slicing with clamped bounds, `rfind` of one character, `max` of two ints and
 `strip()` with no arguments.
 */
module PyStr {

  function Min(a: int, b: int): int { if a <= b then a else b }

  function Max(a: int, b: int): int { if a >= b then a else b }

  /** The characters for which Python's `str.isspace()` is true. */
  predicate IsSpace(c: char) {
    || ('\t' <= c <= '\r')               // tab, newline, \x0b, \x0c, carriage return
    || ('\U{1C}' <= c <= '\U{1F}')       // file, group, record and unit separators
    || c == ' '
    || c == '\U{85}' || c == '\U{A0}' || c == '\U{1680}'
    || ('\U{2000}' <= c <= '\U{200A}')
    || c == '\U{2028}' || c == '\U{2029}' || c == '\U{202F}' || c == '\U{205F}'
    || c == '\U{3000}'
  }

  predicate AllSpace(s: string) {
    forall k :: 0 <= k < |s| ==> IsSpace(s[k])
  }

  /** `s[lo:hi]` for non-negative bounds: both bounds are clamped to `len(s)`
      and a range that is empty or reversed gives the empty string. */
  function PySlice(s: string, lo: nat, hi: nat): (r: string)
    ensures |r| == if hi <= lo || |s| <= lo then 0 else Min(hi, |s|) - lo
    ensures forall k :: 0 <= k < |r| ==> r[k] == s[lo + k]
    ensures hi <= |s| && lo <= hi ==> r == s[lo..hi]
  {
    if |s| <= lo || hi <= lo then [] else s[lo..Min(hi, |s|)]
  }

  /** `[x for x in xs if keep(x)]` */
  function Filter<T>(xs: seq<T>, keep: T -> bool): (ys: seq<T>)
    ensures |ys| <= |xs|
    ensures forall k :: 0 <= k < |ys| ==> keep(ys[k]) && ys[k] in xs
    ensures forall x :: x in xs && keep(x) ==> x in ys
  {
    if xs == [] then []
    else if keep(xs[0]) then [xs[0]] + Filter(xs[1..], keep)
    else Filter(xs[1..], keep)
  }

  /** Filtering works element by element, in order: filtering a
      concatenation filters each part and concatenates the results, so the
      kept elements keep their order and their repetitions. */
  lemma {:induction false} FilterConcat<T>(xs: seq<T>, ys: seq<T>, keep: T -> bool)
    ensures Filter(xs + ys, keep) == Filter(xs, keep) + Filter(ys, keep)
  {
    if xs == [] {
      assert xs + ys == ys;
    } else {
      var x, rest := xs[0], xs[1..];
      assert (xs + ys)[0] == x && (xs + ys)[1..] == rest + ys;
      FilterConcat(rest, ys, keep);
      var tail := Filter(rest, keep) + Filter(ys, keep);
      if keep(x) {
        assert Filter(xs + ys, keep) == [x] + tail;
        assert [x] + tail == ([x] + Filter(rest, keep)) + Filter(ys, keep);
      } else {
        assert Filter(xs + ys, keep) == tail;
      }
    }
  }

  /** `s.rfind(c)`: an index holding `c`, or -1. */
  function RFind(s: string, c: char): (r: int)
    ensures -1 <= r < |s|
    ensures 0 <= r ==> s[r] == c
  {
    if |s| == 0 then -1
    else if s[|s| - 1] == c then |s| - 1
    else RFind(s[..|s| - 1], c)
  }

  /** `rfind` finds the last occurrence: no index after its result holds
      `c`, so -1 means `c` does not occur at all. */
  lemma {:induction false} RFindIsLast(s: string, c: char)
    ensures forall k :: RFind(s, c) < k < |s| ==> s[k] != c
  {
    if |s| > 0 && s[|s| - 1] != c {
      var init := s[..|s| - 1];
      RFindIsLast(init, c);
      assert forall k :: 0 <= k < |init| ==> init[k] == s[k];
    }
  }

  /** Number of leading whitespace characters. */
  function SpaceRunStart(s: string): (a: nat)
    ensures a <= |s|
    ensures forall k :: 0 <= k < a ==> IsSpace(s[k])
    ensures a < |s| ==> !IsSpace(s[a])
  {
    if |s| == 0 || !IsSpace(s[0]) then 0 else 1 + SpaceRunStart(s[1..])
  }

  /** Length of `s` once trailing whitespace is removed. */
  function SpaceRunEnd(s: string): (b: nat)
    ensures b <= |s|
    ensures forall k :: b <= k < |s| ==> IsSpace(s[k])
    ensures 0 < b ==> !IsSpace(s[b - 1])
  {
    if |s| == 0 || !IsSpace(s[|s| - 1]) then |s| else SpaceRunEnd(s[..|s| - 1])
  }

  /** The bounds `(lo, hi)` that `strip()` keeps: everything outside them is
      whitespace and, when something is kept, it starts and ends with a
      non-whitespace character. */
  function StripSpan(s: string): (span: (nat, nat))
    ensures span.0 <= span.1 <= |s|
    ensures forall k :: 0 <= k < span.0 ==> IsSpace(s[k])
    ensures forall k :: span.1 <= k < |s| ==> IsSpace(s[k])
    ensures span.0 < span.1 ==> !IsSpace(s[span.0]) && !IsSpace(s[span.1 - 1])
  {
    var hi := SpaceRunEnd(s);
    var lo := SpaceRunStart(s[..hi]);
    (lo, hi)
  }

  /** `s.strip()` */
  function Strip(s: string): (r: string)
    ensures |r| <= |s|
    ensures r == [] <==> AllSpace(s)
    ensures r != [] ==> !IsSpace(r[0]) && !IsSpace(r[|r| - 1])
  {
    var span := StripSpan(s);
    s[span.0..span.1]
  }

  /** A non-whitespace character is kept by `strip()`, at its own place
      within the kept span. */
  lemma StripKeepsNonSpace(s: string, k: nat)
    requires k < |s| && !IsSpace(s[k])
    ensures StripSpan(s).0 <= k < StripSpan(s).1
    ensures Strip(s) == s[StripSpan(s).0..StripSpan(s).1] != []
  {
  }

  /** Stripping a slice that holds a non-whitespace character at `i` leaves
      a non-empty slice of the same text that still holds `i`. */
  lemma StripSliceKeeps(text: string, lo: nat, hi: nat, i: nat)
    requires lo <= i < hi <= |text| && !IsSpace(text[i])
    ensures Strip(text[lo..hi]) != []
    ensures lo + StripSpan(text[lo..hi]).0 <= i < lo + StripSpan(text[lo..hi]).1 <= hi
    ensures Strip(text[lo..hi]) == text[lo + StripSpan(text[lo..hi]).0..lo + StripSpan(text[lo..hi]).1]
  {
    var s := text[lo..hi];
    assert s[i - lo] == text[i];
    StripKeepsNonSpace(s, i - lo);
    var span := StripSpan(s);
    SliceOfSlice(text, lo, hi, span.0, span.1);
  }

  lemma SliceOfSlice<T>(xs: seq<T>, lo: nat, hi: nat, a: nat, b: nat)
    requires lo <= hi <= |xs| && a <= b <= hi - lo
    ensures xs[lo..hi][a..b] == xs[lo + a..lo + b]
  {
    var inner := xs[lo..hi];
    var outer := inner[a..b];
    var direct := xs[lo + a..lo + b];
    assert |outer| == |direct|;
    forall i | 0 <= i < |outer|
      ensures outer[i] == direct[i]
    {
      assert outer[i] == inner[a + i] == xs[lo + a + i];
    }
  }

  /** A string that neither starts nor ends with whitespace is its own strip. */
  lemma StripOfTrimmed(s: string)
    requires s != [] ==> !IsSpace(s[0]) && !IsSpace(s[|s| - 1])
    ensures Strip(s) == s
  {
    var span := StripSpan(s);
    if s != [] {
      assert !IsSpace(s[0]) && !IsSpace(s[|s| - 1]);
      assert span == (0, |s|);
    }
  }

  lemma StripIdempotent(s: string)
    ensures Strip(Strip(s)) == Strip(s)
  {
    StripOfTrimmed(Strip(s));
  }
}

=== FILE: query.dfy ===
/**
 The `/query` endpoint: the query is embedded, the store is searched with
 the first embedding, and each hit's payload is split into its `text` and
 the remaining keys. The embedding service and the search are parameters.
 */
module Query {
  import opened Outcomes
  import opened Records

  /** The request's default number of results. */
  const DefaultLimit: int := 10

  /** One response entry: `text` is the payload's `text` value, `metadata`
      every other key. A payload without `text` fails the whole request. */
  function ProjectHit(h: Hit): (r: Result<QueryResult, Error>)
    ensures r.Success? <==> TextKey in h.payload
    ensures r.Failure? ==> r.error == MissingText
    ensures r.Success? ==>
              && r.value.score == h.score
              && TextKey !in r.value.metadata
              && r.value.metadata[TextKey := r.value.text] == h.payload
  {
    if TextKey !in h.payload then Failure(MissingText)
    else Success(QueryResult(h.payload[TextKey], h.score, h.payload - {TextKey}))
  }

  /** The `for result in search_results` loop: every hit projected, in order;
      the first hit without `text` aborts it. */
  function ProjectHits(hits: seq<Hit>): (r: Result<seq<QueryResult>, Error>)
    ensures r.Success? <==> forall i :: 0 <= i < |hits| ==> TextKey in hits[i].payload
    ensures r.Failure? ==> r.error == MissingText
    ensures r.Success? ==>
              && |r.value| == |hits|
              && forall i :: 0 <= i < |hits| ==> ProjectHit(hits[i]) == Success(r.value[i])
  {
    if hits == [] then Success([])
    else
      match ProjectHit(hits[0])
      case Failure(e) => Failure(e)
      case Success(first) =>
        match ProjectHits(hits[1..])
        case Failure(e) => Failure(e)
        case Success(rest) => Success([first] + rest)
  }

  /** `main.py` lines 166-172 as written: the results appended one by one; the first
      payload without `text` ends the request. */
  method CollectResults(hits: seq<Hit>) returns (r: Result<seq<QueryResult>, Error>)
    ensures r == ProjectHits(hits)
  {
    var results: seq<QueryResult> := [];
    var i := 0;
    while i < |hits|
      invariant i <= |hits| && |results| == i
      invariant forall k :: 0 <= k < i ==> ProjectHit(hits[k]) == Success(results[k])
    {
      var h := hits[i];
      if TextKey !in h.payload {
        assert !(TextKey in hits[i].payload);
        return Failure(MissingText);
      }
      var metadata := map k | k in h.payload && k != TextKey :: h.payload[k];
      assert metadata == h.payload - {TextKey};
      results := results + [QueryResult(h.payload[TextKey], h.score, metadata)];
      i := i + 1;
    }
    r := Success(results);
    assert r.value == ProjectHits(hits).value;
  }

  /** `query_documents`. `embed` stands for the embedding service (`None` on an
      error status, a timeout or a reply without `embeddings`) and `search` for the store's search with a vector and a
      limit. */
  function QueryDocuments(query: string, limit: int := DefaultLimit, embed: seq<string> -> Option<seq<Embedding>>,
                          search: (Embedding, int) -> seq<Hit>): (r: Result<seq<QueryResult>, Error>)
    ensures embed([query]).None? ==> r == Failure(EmbeddingServiceError)
    ensures embed([query]) == Some([]) ==> r == Failure(NoQueryEmbedding)
    ensures embed([query]).Some? && embed([query]).value != [] ==>
              var hits := search(embed([query]).value[0], limit);
              && (r.Success? <==> forall i :: 0 <= i < |hits| ==> TextKey in hits[i].payload)
              && (r.Failure? ==> r.error == MissingText)
    ensures r.Success? ==>
              && embed([query]).Some? && embed([query]).value != []
              && var hits := search(embed([query]).value[0], limit);
                 && |r.value| == |hits|
                 && forall i :: 0 <= i < |hits| ==>
                      && TextKey in hits[i].payload
                      && r.value[i].text == hits[i].payload[TextKey]
                      && r.value[i].score == hits[i].score
                      && r.value[i].metadata == hits[i].payload - {TextKey}
  {
    var embedded := embed([query]);
    if embedded.None? then Failure(EmbeddingServiceError)
    else if embedded.value == [] then Failure(NoQueryEmbedding)
    else ProjectHits(search(embedded.value[0], limit))
  }
}

=== FILE: records.dfy ===
/**
 The records the RAG API exchanges with the vector store and its clients:
 JSON values and payloads, the points it stores and the hits a search
 returns.
 */
module Records {

  /** A JSON value as it appears in document metadata and point payloads.
      Numbers with a fraction are kept as exact reals. */
  datatype Value =
    | Null
    | Bool(b: bool)
    | Int(i: int)
    | Number(r: real)
    | Str(s: string)
    | Array(items: seq<Value>)
    | Object(fields: map<string, Value>)

  /** A JSON object: a point's payload, or a document's metadata. */
  type Payload = map<string, Value>

  /** An embedding vector, as the embedding service returns it. */
  type Embedding = seq<real>

  /** The payload key holding a chunk's text. */
  const TextKey: string := "text"

  /** The payload key holding a chunk's position in its document. */
  const ChunkIndexKey: string := "chunk_index"

  /** A point written to the vector store. Its random id is not modelled. */
  datatype Point = Point(vector: Embedding, payload: Payload)

  /** One search result: the stored payload and its similarity score. */
  datatype Hit = Hit(payload: Payload, score: real)

  /** One entry of the query response. */
  datatype QueryResult = QueryResult(text: Value, score: real, metadata: Payload)

  /** Why a request fails. Each is caught by the endpoint and answered with
      HTTP status 500. */
  datatype Error =
    | EmbeddingServiceError   // the embedding service failed: an error status, a timeout or no `embeddings`
    | MetadataNotMapping      // `**None`: the document's metadata is null
    | NoQueryEmbedding        // `query_embedding[0]` on an empty list
    | MissingText             // `result.payload["text"]` on a payload without that key
}

=== FILE: round_trip.dfy ===
/**
 What a query gives back for points an ingest stored: every stored payload
 has a `text` key, so the projection never fails on them, and it returns the
 chunk and the document's metadata plus the chunk's index, unless the
 metadata itself uses one of those two keys.
 */
module RoundTrip {
  import opened PyStr
  import opened Chunker
  import opened Outcomes
  import opened Records
  import opened Ingest
  import opened Query

  /** The payload the store holds for a chunk, read back through the query
      projection: the metadata's own `text` wins over the chunk, and the
      returned metadata is everything but `text`. */
  lemma {:induction false} ProjectStoredPayload(chunk: string, index: nat, metadata: Payload, score: real)
    ensures ProjectHit(Hit(ChunkPayload(chunk, index, metadata), score))
            == Success(QueryResult(if TextKey in metadata then metadata[TextKey] else Str(chunk),
                                   score,
                                   (map[ChunkIndexKey := Int(index)] + metadata) - {TextKey}))
  {
    var p := ChunkPayload(chunk, index, metadata);
    var expected := (map[ChunkIndexKey := Int(index)] + metadata) - {TextKey};
    assert p - {TextKey} == expected by {
      assert (p - {TextKey}).Keys == expected.Keys;
      forall k | k in expected
        ensures (p - {TextKey})[k] == expected[k]
      {
      }
    }
  }

  /** With metadata that uses neither reserved key, the chunk comes back
      intact and the metadata comes back with the chunk's index added. */
  lemma {:induction false} ChunkRoundTrip(chunk: string, index: nat, metadata: Payload, score: real)
    requires TextKey !in metadata && ChunkIndexKey !in metadata
    ensures ProjectHit(Hit(ChunkPayload(chunk, index, metadata), score))
            == Success(QueryResult(Str(chunk), score, metadata[ChunkIndexKey := Int(index)]))
  {
    ProjectStoredPayload(chunk, index, metadata, score);
    assert (map[ChunkIndexKey := Int(index)] + metadata) - {TextKey} == metadata[ChunkIndexKey := Int(index)];
  }

  /** Hits a search can return from a store holding `points`: hit `j` carries
      the payload of point `picks[j]`. */
  predicate HitsFrom(hits: seq<Hit>, points: seq<Point>, picks: seq<nat>)
  {
    && |picks| == |hits|
    && forall j :: 0 <= j < |picks| ==> picks[j] < |points| && hits[j].payload == points[picks[j]].payload
  }

  /** Projecting hits drawn from the points built for some chunks succeeds,
      and each result is the projection of the stored chunk it hit. */
  lemma {:induction false} ProjectStored(chunks: seq<string>, embeddings: seq<Embedding>, metadata: Payload,
                                         hits: seq<Hit>, picks: seq<nat>)
    requires HitsFrom(hits, BuildPoints(chunks, embeddings, metadata), picks)
    ensures var r := ProjectHits(hits);
            && r.Success?
            && |r.value| == |picks|
            && forall j :: 0 <= j < |picks| ==>
                 && picks[j] < |chunks|
                 && r.value[j].text == (if TextKey in metadata then metadata[TextKey] else Str(chunks[picks[j]]))
                 && r.value[j].score == hits[j].score
                 && r.value[j].metadata == (map[ChunkIndexKey := Int(picks[j])] + metadata) - {TextKey}
  {
    var points := BuildPoints(chunks, embeddings, metadata);
    forall j | 0 <= j < |hits|
      ensures picks[j] < |chunks|
      ensures TextKey in hits[j].payload
      ensures ProjectHit(hits[j])
              == Success(QueryResult(if TextKey in metadata then metadata[TextKey] else Str(chunks[picks[j]]),
                                     hits[j].score,
                                     (map[ChunkIndexKey := Int(picks[j])] + metadata) - {TextKey}))
    {
      assert hits[j].payload == ChunkPayload(chunks[picks[j]], picks[j], metadata);
      ProjectStoredPayload(chunks[picks[j]], picks[j], metadata, hits[j].score);
    }
  }

  /** A query over the points of any successful ingest succeeds, and each
      result is the projection of the stored chunk it hit. */
  lemma {:induction false} QueryIngested(text: string, metadata: Option<Payload>,
                                         embed: seq<string> -> Option<seq<Embedding>>, ingested: Ingested,
                                         query: string, limit: int, search: (Embedding, int) -> seq<Hit>,
                                         picks: seq<nat>)
    requires IngestDocument(text, metadata, embed) == Success(ingested)
    requires embed([query]).Some? && embed([query]).value != []
    requires HitsFrom(search(embed([query]).value[0], limit), ingested.points, picks)
    ensures var r := QueryDocuments(query, limit, embed, search);
            var hits := search(embed([query]).value[0], limit);
            var md := if metadata.Some? then metadata.value else map[];
            && r.Success?
            && |r.value| == |picks|
            && forall j :: 0 <= j < |picks| ==>
                 && r.value[j].text == (if TextKey in md then md[TextKey] else Str(ChunkText(text)[picks[j]]))
                 && r.value[j].score == hits[j].score
                 && r.value[j].metadata == (map[ChunkIndexKey := Int(picks[j])] + md) - {TextKey}
  {
    var md := if metadata.Some? then metadata.value else map[];
    var chunks := ChunkText(text);
    var embeddings := embed(chunks).value;
    assert ingested.points == BuildPoints(chunks, embeddings, md);
    ProjectStored(chunks, embeddings, md, search(embed([query]).value[0], limit), picks);
  }

  /** A query over points of a document ingested with metadata that uses
      neither reserved key returns, for every hit, the chunk it hit and the
      document's metadata tagged with the chunk's index. */
  lemma {:induction false} QueryIngestedPlain(text: string, metadata: Payload,
                                              embed: seq<string> -> Option<seq<Embedding>>, ingested: Ingested,
                                              query: string, limit: int, search: (Embedding, int) -> seq<Hit>,
                                              picks: seq<nat>)
    requires TextKey !in metadata && ChunkIndexKey !in metadata
    requires IngestDocument(text, Some(metadata), embed) == Success(ingested)
    requires embed([query]).Some? && embed([query]).value != []
    requires HitsFrom(search(embed([query]).value[0], limit), ingested.points, picks)
    ensures var r := QueryDocuments(query, limit, embed, search);
            && r.Success?
            && |r.value| == |picks|
            && forall j :: 0 <= j < |picks| ==>
                 && picks[j] < |ChunkText(text)|
                 && r.value[j].text == Str(ChunkText(text)[picks[j]])
                 && r.value[j].metadata == metadata[ChunkIndexKey := Int(picks[j])]
  {
    QueryIngested(text, Some(metadata), embed, ingested, query, limit, search, picks);
    var r := QueryDocuments(query, limit, embed, search);
    forall j | 0 <= j < |picks|
      ensures picks[j] < |ChunkText(text)|
      ensures r.value[j].metadata == metadata[ChunkIndexKey := Int(picks[j])]
    {
      TaggedMetadata(metadata, picks[j]);
    }
  }

  /** The returned metadata of a chunk whose document metadata uses neither
      reserved key is that metadata plus the chunk's index. */
  lemma TaggedMetadata(metadata: Payload, index: nat)
    requires TextKey !in metadata && ChunkIndexKey !in metadata
    ensures (map[ChunkIndexKey := Int(index)] + metadata) - {TextKey} == metadata[ChunkIndexKey := Int(index)]
  {
  }

  /** Every chunk of a document gets a point when the embedding service
      answers with one vector per chunk, and the response's count is the
      number of points written. */
  lemma {:induction false} EveryChunkStored(text: string, metadata: Payload,
                                            embed: seq<string> -> Option<seq<Embedding>>)
    requires embed(ChunkText(text)).Some? && |embed(ChunkText(text)).value| == |ChunkText(text)|
    ensures var r := IngestDocument(text, Some(metadata), embed);
            && r.Success?
            && r.value.chunks == |r.value.points| == |ChunkText(text)|
            && forall i :: 0 <= i < |ChunkText(text)| ==>
                 r.value.points[i].payload[ChunkIndexKey] == (if ChunkIndexKey in metadata then metadata[ChunkIndexKey] else Int(i))
  {
  }
}
